=== FILE: README.md ===
# Testimonial carousel navigation, verified in Dafny

This project models the navigation controller of the `TestimonialSlider`
React component (`src/components/TestimonialsSlider/index.jsx`). The
component shows testimonials fetched from a CMS in a horizontally scrolling
carousel. Between one and three cards are visible depending on the viewport
width. A repeating timer advances the carousel, and it pauses while the
mouse hovers over it or a finger touches it. Arrow buttons and horizontal
swipes move it by one card.

Modules:

- `Breakpoints` (`breakpoints.dfy`) maps viewport width to cards in view (`updateItemsPerView`).
- `Navigation` (`navigation.dfy`) holds `slide("next")` / `slide("prev")` over the integer index `i`, with `n` testimonials and `k` cards in view. It proves the modular reference definition, the inverse law and the cycle length. It also exposes the negative-index behaviour when `n < k`.
- `Swipe` (`swipe.dfy`) turns a touch's start and end coordinates into a navigation or a resume (`handleTouchEnd`).
- `Content` (`content.dfy`) merges the fetched payload into heading and list, with JavaScript `||` defaulting.
- `Autoplay` (`autoplay.dfy`) models the timer handle (`startAutoSlide` / `stopAutoSlide`). The running browser timers are an explicit set, so "at most one timer runs" can be stated.
- `Carousel` (`carousel.dfy`) is the whole component as an immutable state record with events `Loaded`, `Resize`, `MouseEnter`, `MouseLeave`, `TouchStart`, `TouchEnd`, `Click` and `Tick`.
  - React's re-run of the autoplay effect is an explicit `Reconcile` step. It compares the effect's dependency list (index, cards in view, number of testimonials) before and after an event. When they differ, it stops the timer and starts a fresh one.
- `Nullables` (`nullable.dfy`) defines `Nullable`, which stands for JavaScript `null`/`undefined`, and `Or` for `||` on objects and arrays.

Behaviour of the code that the model keeps on purpose:

- With fewer testimonials than cards in view, "previous" from index 0 goes to the negative index `n - k`. Each further "previous" moves one step further below zero. "Next" brings the index back: it counts up to `n - k` and then wraps to 0.
- The timer is restarted only when a dependency changes. So a long swipe that leaves the index where it was leaves autoplay stopped: the touch start had cancelled the timer, and nothing restarts it. A slide leaves the index unchanged only at index 0, in two cases: forward with `n <= k`, or backward with `n == k`. The backward case is three testimonials at desktop width.
- Hovering pauses autoplay only until one of its dependencies changes. Clicking an arrow while the mouse is still over the slider changes the index and restarts the timer. A resize that changes the cards in view does the same, and so does a fetch that changes the number of testimonials.
- A resize can leave the index past the last full window. The next forward step wraps it to 0, and a backward step moves it one closer.

## Model

| member | source | states |
|---|---|---|
| Breakpoints.ItemsPerView | src/components/TestimonialsSlider/index.jsx:34-42 | 3 cards exactly when width ≥ 1024, 2 exactly when 768 ≤ width < 1024, 1 exactly when width < 768; always in {1,2,3} |
| Breakpoints.ItemsPerViewCountsThresholds | src/components/TestimonialsSlider/index.jsx:35-41 | cards in view equal one plus the number of breakpoints (768, 1024) the width has reached |
| Breakpoints.ItemsPerViewMonotone | src/components/TestimonialsSlider/index.jsx:35-41 | a wider viewport never shows fewer cards |
| Breakpoints.ResizeDesktopToPhone | src/components/TestimonialsSlider/index.jsx:34-42 | width 1200 shows three cards and width 700 shows one |
| Navigation.NextIndex | src/components/TestimonialsSlider/index.jsx:73-75 | next either wraps to 0 or advances by one without passing the last window start n − k; from any i ≥ 0 it lands in [0, max(0, n − k)]; with n ≤ k and i ≥ 0 it yields 0 |
| Navigation.PrevIndex | src/components/TestimonialsSlider/index.jsx:69-71 | prev either wraps to n − k or steps back by one; with n ≥ k it keeps a well-formed index well-formed; from i > 0 it stays non-negative; with n < k prev(0) is negative |
| Navigation.PrevWrapsFromFirst | src/components/TestimonialsSlider/index.jsx:70 | prev from index 0 gives n − k for every n and k |
| Navigation.PrevStepsBack | src/components/TestimonialsSlider/index.jsx:70 | prev from any non-zero index, negative or past the last window included, gives exactly i − 1 |
| Navigation.Slide | src/components/TestimonialsSlider/index.jsx:67-77 | a slide moves one step or wraps to 0 or n − k; with n ≥ k it keeps a well-formed index well-formed and equals (i ± 1) mod (n − k + 1), + for Next and − for Prev; it leaves the index unchanged exactly when the index is 0 and the slide is forward with n ≤ k or backward with n = k |
| Navigation.NextIsSuccessorModWindows | src/components/TestimonialsSlider/index.jsx:73-75 | on well-formed indices next equals (i + 1) mod (n − k + 1) |
| Navigation.PrevIsPredecessorModWindows | src/components/TestimonialsSlider/index.jsx:69-71 | on well-formed indices prev equals (i − 1) mod (n − k + 1) |
| Navigation.NextPrevInverse | src/components/TestimonialsSlider/index.jsx:67-77 | with n ≥ k and 0 ≤ i ≤ n − k, prev(next(i)) = i and next(prev(i)) = i |
| Navigation.OutOfRangeRecovers | src/components/TestimonialsSlider/index.jsx:67-77 | an index past the last window start goes to 0 on next, and prev moves it one step down without undershooting n − k |
| Navigation.NextIterCounts | src/components/TestimonialsSlider/index.jsx:73-75 | j steps of next from i add j while i + j ≤ n − k |
| Navigation.NextIterIsModular | src/components/TestimonialsSlider/index.jsx:73-75 | j steps of next from a well-formed i give (i + j) mod (n − k + 1) |
| Navigation.NextCycleLength | src/components/TestimonialsSlider/index.jsx:73-75 | with n ≥ k, next from 0 returns to 0 after exactly n − k + 1 steps and not before |
| Navigation.NextCycleVisitsAll | src/components/TestimonialsSlider/index.jsx:73-75 | every window start t in [0, n − k] is reached from 0 after t steps of next |
| Navigation.PrevIterUndoesNextIter | src/components/TestimonialsSlider/index.jsx:67-77 | j presses of prev undo j steps of next on well-formed indices |
| Navigation.PrevDriftsBelowZero | src/components/TestimonialsSlider/index.jsx:69-71 | with n < k, j presses of prev from 0 give n − k − (j − 1), always negative and never wrapping |
| Navigation.NextRepairsNegative | src/components/TestimonialsSlider/index.jsx:67-77 | from a negative index, max(0, n − k − i) + 1 steps of next land on 0 |
| Navigation.NegativeFirstReachesZero | src/components/TestimonialsSlider/index.jsx:73-75 | from a negative index, next first reaches 0 after exactly −i steps when n ≥ k, and after max(0, n − k − i) + 1 steps when n < k, and never earlier |
| Swipe.Classify | src/components/TestimonialsSlider/index.jsx:85-92 | forward exactly when startX − endX > 50, back exactly when endX − startX > 50, no navigation exactly when the drag is at most 50 either way |
| Swipe.ClassifyMirror | src/components/TestimonialsSlider/index.jsx:86-88 | swapping start and end of a drag reverses the direction and keeps short drags short |
| Swipe.ClassifyTranslationInvariant | src/components/TestimonialsSlider/index.jsx:86-87 | only the signed distance matters, not where the drag happened |
| Swipe.ClassifyExamples | src/components/TestimonialsSlider/index.jsx:86-91 | a 60-pixel left drag goes forward; 30 and exactly 50 pixels do not navigate |
| Content.Merge | src/components/TestimonialsSlider/index.jsx:24-29 | a null payload changes nothing; otherwise the heading is never empty, is the payload's heading when that is non-empty and the default otherwise, and the list is the payload's list or empty |
| Content.MergeReplacesWholesale | src/components/TestimonialsSlider/index.jsx:25-28 | a non-null payload's result does not depend on the previous heading and list |
| Content.MergeIdempotent | src/components/TestimonialsSlider/index.jsx:24-29 | merging the same payload twice equals merging it once |
| Content.EmptyHeadingFallsBack | src/components/TestimonialsSlider/index.jsx:26 | an empty or missing heading falls back to "What People Say About Us" |
| Content.MergeExamples | src/components/TestimonialsSlider/index.jsx:24-29 | heading "Voices" with one testimonial gives that heading and one card; an empty or null response keeps the default heading and no cards |
| Autoplay.Stop | src/components/TestimonialsSlider/index.jsx:60-65 | clears the ref and cancels exactly the held timer, nothing else; under the discipline no timer is left running |
| Autoplay.Start | src/components/TestimonialsSlider/index.jsx:55-58 | holds a freshly issued id, the previously held timer is no longer running, and under the discipline the new timer is the only one running |
| Autoplay.AtMostOneLive | src/components/TestimonialsSlider/index.jsx:55-65 | under the discipline at most one timer runs |
| Autoplay.StopIdempotent | src/components/TestimonialsSlider/index.jsx:60-65 | stopping twice equals stopping once |
| Autoplay.RestartReplaces | src/components/TestimonialsSlider/index.jsx:55-58 | two starts in a row leave only the second timer running; stop then start equals start |
| Carousel.Reconcile | src/components/TestimonialsSlider/index.jsx:50-53 | only timers change; unchanged dependencies change nothing; changed dependencies leave exactly one running timer, the held one |
| Carousel.Dispatch | src/components/TestimonialsSlider/index.jsx:24-103 | handlers keep the timer discipline; only a fetch changes the section, only a resize changes cards in view, only a click, tick or touch end changes the index, only a touch start changes the recorded start coordinate |
| Carousel.Step | src/components/TestimonialsSlider/index.jsx:50-53 | a handler plus its re-render keeps the timer discipline and the same per-event frame as Dispatch |
| Carousel.Mount | src/components/TestimonialsSlider/index.jsx:5-53 | after mounting, index 0, default section, cards in view from the width, and exactly one running timer |
| Carousel.Unmount | src/components/TestimonialsSlider/index.jsx:52 | teardown clears the ref and leaves no timer running |
| Carousel.RunPreservesValid | src/components/TestimonialsSlider/index.jsx:55-65 | after any sequence of events the only running timer is the held one, so at most one runs |
| Carousel.TeardownReleasesTimer | src/components/TestimonialsSlider/index.jsx:50-53 | mount, any events, then unmount leaves no timer running |
| Carousel.HoverPausesAndLeaveResumes | src/components/TestimonialsSlider/index.jsx:100-104 | mouse enter leaves the ref null and no timer running, without moving the slider; mouse leave leaves exactly one timer, the held one |
| Carousel.TouchStartPauses | src/components/TestimonialsSlider/index.jsx:80-83 | touch start leaves the ref null, no timer running, and records the start coordinate |
| Carousel.LongSwipeNavigatesOnce | src/components/TestimonialsSlider/index.jsx:85-88 | a long swipe applies exactly one slide, next for Next and prev for Prev; it changes neither testimonials nor cards in view, and leaves the timers alone when the index does not move |
| Carousel.ClickSlidesOnce | src/components/TestimonialsSlider/index.jsx:133-153 | an arrow click applies exactly one slide, next for Next and prev for Prev; it changes neither testimonials nor cards in view, and leaves the timers alone when the index does not move |
| Carousel.ShortTouchResumes | src/components/TestimonialsSlider/index.jsx:89-91 | a short touch keeps the index and leaves exactly one running timer |
| Carousel.CancelledTimerIsSilent | src/components/TestimonialsSlider/index.jsx:57-63 | a tick from a timer that is not running changes nothing |
| Carousel.TickAdvances | src/components/TestimonialsSlider/index.jsx:57 | a tick of the held timer applies next and autoplay keeps running |
| Carousel.Autoplayed | src/components/TestimonialsSlider/index.jsx:50-57 | j undisturbed ticks move the index by j applications of next and keep one timer running |
| Carousel.AutoplayCycle | src/components/TestimonialsSlider/index.jsx:50-75 | left alone with n ≥ k, autoplay from 0 is back at 0 after exactly n − k + 1 ticks and not before |
| Carousel.ResizeKeepsIndex | src/components/TestimonialsSlider/index.jsx:33-53 | a resize sets cards in view from the width and leaves the index unchanged; timers are untouched when cards in view stay the same, and otherwise exactly one timer runs, the held one |
| Carousel.NavigationStaysInWindow | src/components/TestimonialsSlider/index.jsx:67-92 | with n ≥ k, clicks, ticks and touches keep a well-formed index well-formed |
| Carousel.ResizeCanLeaveWindow | src/components/TestimonialsSlider/index.jsx:67-77 | index 4 of 5 on a phone is past the last window at desktop width, and next wraps it to 0 |
| Carousel.PrevFromFirstGoesNegative | src/components/TestimonialsSlider/index.jsx:69-71 | with fewer testimonials than cards in view, the prev arrow from index 0 gives a negative index |
| Carousel.PrevBeforeFetchStaysNegative | src/components/TestimonialsSlider/index.jsx:67-77 | on a phone, two prevs before the fetch give index −2, and after five testimonials arrive prev gives −3 instead of wrapping |
| Carousel.FruitlessSwipeStallsAutoplay | src/components/TestimonialsSlider/index.jsx:80-92 | with n ≤ k at index 0, touch start and then a long left swipe keep index 0 and leave no timer running |
| Carousel.SwipeStallsAutoplayExactly | src/components/TestimonialsSlider/index.jsx:80-92 | after touch start and a long swipe, no timer runs exactly when the index is 0 and the swipe is forward with n ≤ k or backward with n = k |
| Carousel.BackwardSwipeStallsAtDesktop | src/components/TestimonialsSlider/index.jsx:80-92 | three testimonials and three cards in view: a long backward swipe from index 0 keeps index 0 and leaves no timer running |
| Carousel.ClickWhileHoveringRestarts | src/components/TestimonialsSlider/index.jsx:50-53 | after mouse enter no timer runs, yet an arrow click that moves the index starts one again |
| Carousel.FetchExample | src/components/TestimonialsSlider/index.jsx:24-29 | after mounting, fetching "Voices" with one testimonial shows that heading and one card at index 0 |
| Carousel.LoadedMerges | src/components/TestimonialsSlider/index.jsx:24-29 | a resolved fetch sets the section to the merge of the response, keeps index and cards in view, and restarts the timer exactly when the number of testimonials changed |

## Left out

- The CMS query and promise plumbing (lines 14-23) are a network call. Only the pure merge of the response is modelled, as the `Loaded` event. A failed fetch never fires that event, so nothing changes.
- Reads of `window.innerWidth` and adding or removing the resize listener (lines 44-46) are DOM I/O. Only the width-to-cards function is modelled, as the `Resize` event.
- The 5000 ms interval period (line 57) is wall-clock timing. A timer firing is the abstract `Tick` event.
- React internals are left out: effect scheduling, `useState`/`useRef`, closure capture and batching. The explicit `Reconcile` step replaces them. The interval's callback always sees the current list length and cards in view, because any change to those restarts the timer.
- JSX markup and CSS classes are left out. So are the card widths (line 117) and the `translateX` percentage (line 109), which is a floating-point presentation value.
- Touch coordinates are modelled as `real`. Browser `clientX` is a double, and rounding is not modelled.
- Multi-touch and vertical scrolling are not handled by the component, so they are not modelled.

=== FILE: autoplay.dfy ===
/** The autoplay timer handle (`autoplayRef` with `startAutoSlide` /
    `stopAutoSlide`).

    The browser's repeating timers are modelled explicitly: `live` is the set
    of interval ids still running and `issued` counts the ids handed out so
    far (ids are `1, 2, ...`, so a held id is never the falsy 0 and the
    truthiness test on the ref is the same as "a handle is held"). */
module Autoplay {
  import opened Nullables

  datatype Timers = Timers(handle: Nullable<nat>, live: set<nat>, issued: nat)

  /** No timer held, none running, none issued yet. */
  const NoTimers: Timers := Timers(Null, {}, 0)

  /** The ids held by the ref: the ref holds at most one timer. */
  function Held(h: Nullable<nat>): (s: set<nat>)
    ensures |s| <= 1
  {
    match h
    case Null => {}
    case Present(id) => {id}
  }

  /** The discipline the component keeps: the only running timer is the one
      the ref holds, and it is one the browser issued. */
  predicate Valid(t: Timers)
  {
    && t.live == Held(t.handle)
    && forall id :: id in t.live ==> 1 <= id <= t.issued
  }

  /** `stopAutoSlide`: if a handle is held, cancel that timer and clear the
      ref; otherwise do nothing. */
  function Stop(t: Timers): (r: Timers)
    ensures r.handle.Null?
    ensures r.issued == t.issued
    ensures forall id :: id in r.live <==> id in t.live && t.handle != Present(id)
    ensures Valid(t) ==> Valid(r) && r.live == {}
  {
    match t.handle
    case Null => t
    case Present(id) => Timers(Null, t.live - {id}, t.issued)
  }

  /** `startAutoSlide`: cancel whatever is held, then start a new repeating
      timer with a fresh id and hold it. */
  function Start(t: Timers): (r: Timers)
    ensures r.handle == Present(r.issued) && r.issued == t.issued + 1
    ensures Valid(t) ==> r.issued !in t.live
    ensures Valid(t) && t.handle.Present? ==> t.handle.value !in r.live
    ensures Valid(t) ==> Valid(r) && r.live == {r.issued}
  {
    var s := Stop(t);
    var id := s.issued + 1;
    Timers(Present(id), s.live + {id}, id)
  }

  /** At most one timer ever runs while the discipline holds. */
  lemma AtMostOneLive(t: Timers)
    requires Valid(t)
    ensures |t.live| <= 1
  {
  }

  /** Stopping twice is the same as stopping once. */
  lemma StopIdempotent(t: Timers)
    ensures Stop(Stop(t)) == Stop(t)
  {
  }

  /** Starting twice in a row leaves only the second timer running: a restart
      replaces the running timer, it never adds a second one. */
  lemma RestartReplaces(t: Timers)
    requires Valid(t)
    ensures Start(Start(t)).live == {t.issued + 2}
    ensures Start(Stop(t)).live == Start(t).live
  {
  }
}

=== FILE: breakpoints.dfy ===
/** The responsive breakpoint tracker: how many testimonial cards are visible
    at once for a given viewport width (`updateItemsPerView`). */
module Breakpoints {

  /** Narrowest width (in CSS pixels) that shows two cards. */
  const TabletWidth: int := 768
  /** Narrowest width (in CSS pixels) that shows three cards. */
  const DesktopWidth: int := 1024

  /** The number of cards in view is always one, two or three. */
  type ViewCount = k: int | 1 <= k <= 3 witness 1

  /** Cards in view for a viewport `width`: the thresholds are checked from the
      widest down, and anything narrower than a tablet shows a single card. */
  function ItemsPerView(width: int): (k: ViewCount)
    ensures k == 3 <==> DesktopWidth <= width
    ensures k == 2 <==> TabletWidth <= width < DesktopWidth
    ensures k == 1 <==> width < TabletWidth
  {
    if width >= DesktopWidth then 3
    else if width >= TabletWidth then 2
    else 1
  }

  /** The breakpoints in increasing order. */
  const Thresholds: seq<int> := [TabletWidth, DesktopWidth]

  /** How many entries of `ts` are at most `width`. */
  function CountReached(ts: seq<int>, width: int): (c: nat)
    ensures c <= |ts|
  {
    if |ts| == 0 then 0
    else (if ts[0] <= width then 1 else 0) + CountReached(ts[1..], width)
  }

  /** Reference definition: one card, plus one more for every breakpoint the
      width has reached. */
  lemma ItemsPerViewCountsThresholds(width: int)
    ensures ItemsPerView(width) == 1 + CountReached(Thresholds, width)
  {
  }

  /** A wider viewport never shows fewer cards. */
  lemma ItemsPerViewMonotone(w1: int, w2: int)
    requires w1 <= w2
    ensures ItemsPerView(w1) <= ItemsPerView(w2)
  {
  }

  /** Narrowing the window from 1200 to 700 pixels goes from three cards to one. */
  lemma ResizeDesktopToPhone()
    ensures ItemsPerView(1200) == 3 && ItemsPerView(700) == 1
  {
  }
}

=== FILE: carousel.dfy ===
/** The testimonial carousel as one explicit state machine.

    Every DOM or timer callback is an `Event`. `Dispatch` is what the handler
    itself does; `Reconcile` is what happens on the re-render that follows:
    when the autoplay effect's dependencies (current index, cards in view,
    number of testimonials) differ from before, the effect's cleanup stops
    the timer and the effect starts a new one. `Step` is the two together. */
module Carousel {
  import opened Nullables
  import opened Breakpoints
  import opened Navigation
  import opened Swipe
  import opened Content
  import opened Autoplay

  datatype State = State(
    section: Section,
    index: int,
    perView: ViewCount,
    startX: real,
    timers: Timers)

  datatype Event =
    | Loaded(data: Nullable<Payload>)
    | Resize(width: int)
    | MouseEnter
    | MouseLeave
    | TouchStart(x: real)
    | TouchEnd(x: real)
    | Click(dir: Direction)
    | Tick(id: nat)

  /** Number of testimonials. */
  function Count(s: State): nat
  {
    |s.section.testimonials|
  }

  /** The autoplay effect's dependency list. */
  function Deps(s: State): (int, int, nat)
  {
    (s.index, s.perView, Count(s))
  }

  predicate Valid(s: State)
  {
    Autoplay.Valid(s.timers)
  }

  /** Re-render after a handler: if the autoplay effect's dependencies
      changed, its cleanup stops the timer and it then starts a fresh one;
      nothing but the timers is touched. */
  function Reconcile(before: State, after: State): (r: State)
    ensures r.(timers := after.timers) == after
    ensures Deps(before) == Deps(after) ==> r == after
    ensures Deps(before) != Deps(after) ==> r.timers.handle.Present?
    ensures Deps(before) != Deps(after) && Valid(after) ==>
      Valid(r) && r.timers.live == Held(r.timers.handle) != {}
  {
    if Deps(before) == Deps(after) then after
    else after.(timers := Start(Stop(after.timers)))
  }

  /** What each callback does before the re-render. */
  function Dispatch(s: State, e: Event): (r: State)
    ensures Valid(s) ==> Valid(r)
    ensures r.section != s.section ==> e.Loaded?
    ensures r.perView != s.perView ==> e.Resize?
    ensures r.index != s.index ==> e.Click? || e.Tick? || e.TouchEnd?
    ensures r.startX != s.startX ==> e.TouchStart?
  {
    match e
    case Loaded(data) => s.(section := Merge(data, s.section))
    case Resize(width) => s.(perView := ItemsPerView(width))
    case MouseEnter => s.(timers := Stop(s.timers))
    case MouseLeave => s.(timers := Start(s.timers))
    case TouchStart(x) => s.(timers := Stop(s.timers), startX := x)
    case TouchEnd(x) =>
      (match Classify(s.startX, x)
       case Navigate(d) => s.(index := Slide(d, s.index, Count(s), s.perView))
       case Resume => s.(timers := Start(s.timers)))
    case Click(d) => s.(index := Slide(d, s.index, Count(s), s.perView))
    case Tick(id) =>
      if id in s.timers.live then s.(index := NextIndex(s.index, Count(s), s.perView))
      else s
  }

  /** One event followed by the re-render it causes. */
  function Step(s: State, e: Event): (r: State)
    ensures Valid(s) ==> Valid(r)
    ensures r.section != s.section ==> e.Loaded?
    ensures r.perView != s.perView ==> e.Resize?
    ensures r.index != s.index ==> e.Click? || e.Tick? || e.TouchEnd?
    ensures r.startX != s.startX ==> e.TouchStart?
  {
    Reconcile(s, Dispatch(s, e))
  }

  /** Events applied one after another. */
  function Run(s: State, es: seq<Event>): State
    decreases |es|
  {
    if |es| == 0 then s else Run(Step(s, es[0]), es[1..])
  }

  /** First render and its effects: state starts at the defaults, the
      breakpoint effect sets the cards in view for `width`, the autoplay
      effect starts a timer, and the re-render restarts it if the cards in
      view changed. The fetch has not resolved yet. */
  function Mount(width: int): (r: State)
    ensures Valid(r)
    ensures r.section == Initial && r.index == 0
    ensures r.perView == ItemsPerView(width)
    ensures r.timers.handle.Present? && |r.timers.live| == 1
  {
    var blank := State(Initial, 0, 1, 0.0, NoTimers);
    var started := blank.(timers := Start(blank.timers));
    Step(started, Resize(width))
  }

  /** Teardown: the autoplay effect's cleanup stops the timer. */
  function Unmount(s: State): (r: State)
    ensures r.timers.handle.Null?
    ensures Valid(s) ==> r.timers.live == {}
  {
    s.(timers := Stop(s.timers))
  }

  /** The timer discipline survives any sequence of events: at every point
      at most one timer runs, and it is the one the ref holds. */
  lemma {:induction false} RunPreservesValid(s: State, es: seq<Event>)
    requires Valid(s)
    ensures Valid(Run(s, es))
    ensures |Run(s, es).timers.live| <= 1
    decreases |es|
  {
    if |es| > 0 {
      RunPreservesValid(Step(s, es[0]), es[1..]);
    } else {
      AtMostOneLive(s.timers);
    }
  }

  /** From mount to teardown, whatever happens in between, no timer is left
      running. */
  lemma TeardownReleasesTimer(width: int, es: seq<Event>)
    ensures Unmount(Run(Mount(width), es)).timers.live == {}
  {
    RunPreservesValid(Mount(width), es);
  }

  /** Hovering pauses autoplay; leaving resumes it with exactly one timer. */
  lemma HoverPausesAndLeaveResumes(s: State)
    requires Valid(s)
    ensures Step(s, MouseEnter).timers.live == {}
    ensures Step(s, MouseEnter).timers.handle.Null?
    ensures Step(s, MouseEnter).index == s.index
    ensures Step(s, MouseLeave).timers.handle.Present?
    ensures Step(s, MouseLeave).timers.live == Held(Step(s, MouseLeave).timers.handle)
  {
  }

  /** Touching pauses autoplay and records where the touch began. */
  lemma TouchStartPauses(s: State, x: real)
    requires Valid(s)
    ensures Step(s, TouchStart(x)).timers.live == {}
    ensures Step(s, TouchStart(x)).timers.handle.Null?
    ensures Step(s, TouchStart(x)).startX == x
  {
  }

  /** A swipe longer than the threshold navigates exactly once in its
      direction (`next` for a drag to the left, `prev` for one to the right)
      and leaves the testimonials and cards in view alone; the handler itself
      never touches the timer, so if the index stays put the timers do too. */
  lemma LongSwipeNavigatesOnce(s: State, x: real, d: Direction)
    requires Classify(s.startX, x) == Navigate(d)
    ensures Step(s, TouchEnd(x)).index == Slide(d, s.index, Count(s), s.perView)
    ensures d == Next ==> Step(s, TouchEnd(x)).index == NextIndex(s.index, Count(s), s.perView)
    ensures d == Prev ==> Step(s, TouchEnd(x)).index == PrevIndex(s.index, Count(s), s.perView)
    ensures Step(s, TouchEnd(x)).section == s.section
    ensures Step(s, TouchEnd(x)).perView == s.perView
    ensures Step(s, TouchEnd(x)).index == s.index ==> Step(s, TouchEnd(x)).timers == s.timers
  {
  }

  /** A short touch does not navigate and restarts autoplay. */
  lemma ShortTouchResumes(s: State, x: real)
    requires Valid(s) && Classify(s.startX, x) == Resume
    ensures Step(s, TouchEnd(x)).index == s.index
    ensures Step(s, TouchEnd(x)).timers.live == Held(Step(s, TouchEnd(x)).timers.handle) != {}
  {
  }

  /** Only the held timer moves the slider; a tick of a cancelled timer is
      ignored. */
  lemma CancelledTimerIsSilent(s: State, id: nat)
    requires id !in s.timers.live
    ensures Step(s, Tick(id)) == s
  {
  }

  /** A tick of the held timer advances the slider and autoplay keeps
      running afterwards. */
  lemma TickAdvances(s: State)
    requires Valid(s) && s.timers.handle.Present?
    ensures Step(s, Tick(s.timers.handle.value)).index == NextIndex(s.index, Count(s), s.perView)
    ensures Valid(Step(s, Tick(s.timers.handle.value)))
    ensures Step(s, Tick(s.timers.handle.value)).timers.handle.Present?
    ensures Step(s, Tick(s.timers.handle.value)).section == s.section
    ensures Step(s, Tick(s.timers.handle.value)).perView == s.perView
  {
  }

  /** `j` undisturbed autoplay ticks: the slider follows `next` `j` times. */
  function Autoplayed(s: State, j: nat): (r: State)
    requires Valid(s) && s.timers.handle.Present?
    ensures Valid(r) && r.timers.handle.Present?
    ensures r.section == s.section && r.perView == s.perView
    ensures r.index == NextIter(s.index, Count(s), s.perView, j)
  {
    if j == 0 then s
    else
      var p := Autoplayed(s, j - 1);
      TickAdvances(p);
      Step(p, Tick(p.timers.handle.value))
  }

  /** Left alone with at least as many testimonials as cards in view,
      autoplay from the first window comes back to it after exactly one tick
      per window. */
  lemma AutoplayCycle(s: State)
    requires Valid(s) && s.timers.handle.Present?
    requires s.index == 0 && Count(s) >= s.perView
    ensures Autoplayed(s, WindowCount(Count(s), s.perView)).index == 0
    ensures forall j: nat :: 0 < j < WindowCount(Count(s), s.perView) ==> Autoplayed(s, j).index != 0
  {
    NextCycleLength(Count(s), s.perView);
  }

  /** Resizing changes the cards in view but never the index itself; the
      timer restarts exactly when the cards in view change. */
  lemma ResizeKeepsIndex(s: State, width: int)
    ensures Step(s, Resize(width)).index == s.index
    ensures Step(s, Resize(width)).perView == ItemsPerView(width)
    ensures ItemsPerView(width) == s.perView ==> Step(s, Resize(width)).timers == s.timers
    ensures ItemsPerView(width) != s.perView ==> Step(s, Resize(width)).timers.handle.Present?
    ensures ItemsPerView(width) != s.perView && Valid(s) ==>
      Step(s, Resize(width)).timers.live == Held(Step(s, Resize(width)).timers.handle) != {}
  {
  }

  /** Navigation keeps a well-formed index well-formed. */
  lemma NavigationStaysInWindow(s: State, e: Event)
    requires Count(s) >= s.perView && InWindow(s.index, Count(s), s.perView)
    requires !e.Loaded? && !e.Resize?
    ensures InWindow(Step(s, e).index, Count(s), s.perView)
  {
  }

  /** A resize can leave the index past the last window (here: the last of
      five cards on a phone, then a desktop width); the next forward step
      wraps it back to the first window. */
  lemma ResizeCanLeaveWindow(s: State)
    requires Count(s) == 5 && s.index == 4 && s.perView == 1
    ensures !InWindow(Step(s, Resize(1200)).index, 5, 3)
    ensures Step(Step(s, Resize(1200)), Click(Next)).index == 0
  {
  }

  /** With fewer testimonials than cards in view, "previous" from the first
      window selects a negative index. */
  lemma PrevFromFirstGoesNegative(s: State)
    requires s.index == 0 && Count(s) < s.perView
    ensures Step(s, Click(Prev)).index < 0
  {
  }

  /** A swipe that does not change the index (forward with no more
      testimonials than cards in view) leaves autoplay stopped: the touch
      start cancelled the timer, and since no dependency changed, nothing
      restarts it. */
  lemma FruitlessSwipeStallsAutoplay(s: State, x0: real, x1: real)
    requires Valid(s) && s.index == 0 && Count(s) <= s.perView
    requires x0 - x1 > Threshold
    ensures Step(Step(s, TouchStart(x0)), TouchEnd(x1)).index == 0
    ensures Step(Step(s, TouchStart(x0)), TouchEnd(x1)).timers.live == {}
  {
  }

  /** A long swipe leaves autoplay stopped exactly when it leaves the index
      where it was, which happens only at index 0: forward with no more
      testimonials than cards in view, or backward with exactly as many. */
  lemma SwipeStallsAutoplayExactly(s: State, x0: real, x1: real, d: Direction)
    requires Valid(s) && Classify(x0, x1) == Navigate(d)
    ensures
      var r := Step(Step(s, TouchStart(x0)), TouchEnd(x1));
      r.timers.live == {} <==>
        s.index == 0 && ((d == Next && Count(s) <= s.perView) || (d == Prev && Count(s) == s.perView))
  {
  }

  /** Three testimonials at desktop width: a long backward swipe from the
      first window keeps index 0 and leaves autoplay stopped. */
  lemma BackwardSwipeStallsAtDesktop(s: State, x0: real, x1: real)
    requires Valid(s) && s.index == 0 && Count(s) == 3 && s.perView == 3
    requires x1 - x0 > Threshold
    ensures Step(Step(s, TouchStart(x0)), TouchEnd(x1)).index == 0
    ensures Step(Step(s, TouchStart(x0)), TouchEnd(x1)).timers.live == {}
  {
  }

  /** An arrow click applies exactly one slide in its direction and leaves
      the testimonials and cards in view alone; the click itself never
      touches the timer, so if the index stays put the timers do too. */
  lemma ClickSlidesOnce(s: State, d: Direction)
    ensures Step(s, Click(d)).index == Slide(d, s.index, Count(s), s.perView)
    ensures d == Next ==> Step(s, Click(d)).index == NextIndex(s.index, Count(s), s.perView)
    ensures d == Prev ==> Step(s, Click(d)).index == PrevIndex(s.index, Count(s), s.perView)
    ensures Step(s, Click(d)).section == s.section
    ensures Step(s, Click(d)).perView == s.perView
    ensures Step(s, Click(d)).index == s.index ==> Step(s, Click(d)).timers == s.timers
  {
  }

  /** A resolved fetch merges its response into the section and leaves the
      index and cards in view alone; the timer restarts only if the number of
      testimonials changed. */
  lemma LoadedMerges(s: State, data: Nullable<Payload>)
    requires Valid(s)
    ensures Step(s, Loaded(data)).section == Merge(data, s.section)
    ensures Step(s, Loaded(data)).index == s.index
    ensures Step(s, Loaded(data)).perView == s.perView
    ensures |Merge(data, s.section).testimonials| == Count(s) ==>
      Step(s, Loaded(data)).timers == s.timers
    ensures |Merge(data, s.section).testimonials| != Count(s) ==>
      Step(s, Loaded(data)).timers.live == Held(Step(s, Loaded(data)).timers.handle) != {}
  {
  }

  /** On a phone, pressing "previous" twice before the fetch resolves gives
      index -2; after five testimonials arrive, "previous" keeps stepping
      down to -3 rather than wrapping. */
  lemma PrevBeforeFetchStaysNegative(width: int, t: seq<Testimonial>)
    requires width < TabletWidth && |t| == 5
    ensures
      var s := Step(Step(Mount(width), Click(Prev)), Click(Prev));
      var loaded := Step(s, Loaded(Present(Payload(Null, Present(t)))));
      s.index == -2 && Step(loaded, Click(Prev)).index == -3
  {
  }

  /** Hovering pauses autoplay only until the index changes: clicking an
      arrow while the mouse is still over the slider restarts it. */
  lemma ClickWhileHoveringRestarts(s: State, d: Direction)
    requires Valid(s)
    requires Slide(d, s.index, Count(s), s.perView) != s.index
    ensures Step(s, MouseEnter).timers.live == {}
    ensures Step(Step(s, MouseEnter), Click(d)).timers.live != {}
  {
  }

  /** Fetching one testimonial titled "Voices" after mounting shows that
      heading and one card, at the first window. */
  lemma FetchExample(width: int)
    ensures
      var t := Testimonial("Great!", "A");
      var s := Step(Mount(width), Loaded(Present(Payload(Present("Voices"), Present([t])))));
      s.section == Section("Voices", [t]) && s.index == 0 && Valid(s)
  {
  }
}

=== FILE: content.dfy ===
/** The data loader's merge step: how the CMS response of the one-shot fetch
    is folded into the section heading and testimonial list. */
module Content {
  import opened Nullables

  /** One quote and who said it. */
  datatype Testimonial = Testimonial(text: string, authorName: string)

  /** The fetched document. A field the document lacks arrives as `null`. */
  datatype Payload = Payload(sectionHeading: Nullable<string>, testimonials: Nullable<seq<Testimonial>>)

  /** Heading shown before the fetch resolves and whenever the CMS gives none. */
  const DefaultHeading: string := "What People Say About Us"

  /** JavaScript truthiness of an optional string: present and non-empty. */
  predicate Truthy(s: Nullable<string>)
  {
    s.Present? && s.value != ""
  }

  /** The displayed section: heading and cards. */
  datatype Section = Section(heading: string, testimonials: seq<Testimonial>)

  /** The initial section before anything is fetched. */
  const Initial: Section := Section(DefaultHeading, [])

  /** Folds a (possibly null) response into the current section. A null
      response changes nothing; otherwise the heading falls back to the
      default when the response's is missing or empty, and the list falls
      back to empty when missing. */
  function Merge(data: Nullable<Payload>, current: Section): (r: Section)
    ensures data.Null? ==> r == current
    ensures data.Present? ==> r.heading != ""
    ensures data.Present? && r.heading != DefaultHeading ==> data.value.sectionHeading == Present(r.heading)
    ensures data.Present? && Truthy(data.value.sectionHeading) ==> r.heading == data.value.sectionHeading.value
    ensures data.Present? ==> r.testimonials == Or(data.value.testimonials, [])
  {
    match data
    case Null => current
    case Present(p) =>
      Section(
        if Truthy(p.sectionHeading) then p.sectionHeading.value else DefaultHeading,
        Or(p.testimonials, []))
  }

  /** A non-null response replaces the section wholesale: the result does not
      depend on what was shown before. */
  lemma MergeReplacesWholesale(p: Payload, a: Section, b: Section)
    ensures Merge(Present(p), a) == Merge(Present(p), b)
  {
  }

  /** Applying the same response twice is the same as applying it once. */
  lemma MergeIdempotent(data: Nullable<Payload>, current: Section)
    ensures Merge(data, Merge(data, current)) == Merge(data, current)
  {
  }

  /** An empty heading string falls back to the default, just like a missing
      one. */
  lemma EmptyHeadingFallsBack(list: Nullable<seq<Testimonial>>, current: Section)
    ensures Merge(Present(Payload(Present(""), list)), current).heading == DefaultHeading
    ensures Merge(Present(Payload(Null, list)), current).heading == DefaultHeading
  {
  }

  /** A response with heading "Voices" and one testimonial shows "Voices" and
      one card; an empty document shows the default heading and no cards. */
  lemma MergeExamples()
    ensures
      var t := Testimonial("Great!", "A");
      Merge(Present(Payload(Present("Voices"), Present([t]))), Initial) == Section("Voices", [t])
    ensures Merge(Present(Payload(Null, Null)), Initial) == Initial
    ensures Merge(Null, Initial) == Initial
  {
  }
}

=== FILE: navigation.dfy ===
/** The slide index controller (`slide("next")` / `slide("prev")`).

    `i` is the index of the first visible card, `n` the number of testimonials
    and `k` the number of cards in view. The last full window starts at
    `n - k`; both directions wrap at the ends. When `n < k` there is no full
    window and `prev` from 0 lands on the negative index `n - k`: the model
    keeps that behaviour. */
module Navigation {

  /** The two arrow buttons / swipe directions. */
  datatype Direction = Prev | Next

  function Max(a: int, b: int): int
  {
    if a >= b then a else b
  }

  /** The start of the last full window. */
  function LastStart(n: nat, k: int): int
  {
    n - k
  }

  /** Number of distinct full windows when `n >= k`. */
  function WindowCount(n: nat, k: int): (m: int)
    ensures n >= k ==> m >= 1
  {
    n - k + 1
  }

  /** A well-formed index: the start of some full window. */
  predicate InWindow(i: int, n: nat, k: int)
  {
    0 <= i <= LastStart(n, k)
  }

  /** `slide("next")`: advance by one, or wrap to the first window once the
      last full window (or anything past it) is showing. */
  function NextIndex(i: int, n: nat, k: int): (r: int)
    ensures r == 0 || r == i + 1
    ensures r != 0 ==> r == i + 1 <= LastStart(n, k)
    ensures i >= 0 ==> 0 <= r <= Max(0, LastStart(n, k))
    ensures n <= k && i >= 0 ==> r == 0
  {
    if i >= LastStart(n, k) then 0 else i + 1
  }

  /** `slide("prev")`: step back by one, or wrap from the first window to the
      last full window. */
  function PrevIndex(i: int, n: nat, k: int): (r: int)
    ensures r == LastStart(n, k) || r == i - 1
    ensures n >= k && InWindow(i, n, k) ==> InWindow(r, n, k)
    ensures i > 0 ==> 0 <= r < i
    ensures n < k && i == 0 ==> r < 0
  {
    if i == 0 then LastStart(n, k) else i - 1
  }

  /** `slide(direction)`: any direction other than `Prev` moves forward.
      A slide moves one step or wraps to an end; it keeps a well-formed index
      well-formed, moving it one window forward or back modulo the number of
      windows; and the only index it leaves in place is 0, forward when
      there are no more testimonials than cards in view, backward when there
      are exactly as many. */
  function Slide(d: Direction, i: int, n: nat, k: int): (r: int)
    ensures r == i + 1 || r == i - 1 || r == 0 || r == LastStart(n, k)
    ensures n >= k && InWindow(i, n, k) ==> InWindow(r, n, k)
    ensures r == i <==> i == 0 && ((d == Next && n <= k) || (d == Prev && n == k))
    ensures n >= k && InWindow(i, n, k) ==>
      r == (i + (if d == Next then 1 else -1)) % WindowCount(n, k)
  {
    match d
    case Prev => PrevIndex(i, n, k)
    case Next => NextIndex(i, n, k)
  }

  /** `prev` from the first window always wraps to the start of the last
      full window, whatever `n` and `k` are. */
  lemma PrevWrapsFromFirst(n: nat, k: int)
    ensures PrevIndex(0, n, k) == LastStart(n, k)
  {
  }

  /** Away from index 0, `prev` steps back by exactly one, for every `n` and
      `k` and every index, negative or past the last window included. */
  lemma PrevStepsBack(i: int, n: nat, k: int)
    requires i != 0
    ensures PrevIndex(i, n, k) == i - 1
  {
  }

  /** Reference definition: on well-formed indices `next` is the successor
      modulo the number of windows. */
  lemma NextIsSuccessorModWindows(i: int, n: nat, k: int)
    requires n >= k && InWindow(i, n, k)
    ensures NextIndex(i, n, k) == (i + 1) % WindowCount(n, k)
  {
  }

  /** Reference definition: on well-formed indices `prev` is the predecessor
      modulo the number of windows. */
  lemma PrevIsPredecessorModWindows(i: int, n: nat, k: int)
    requires n >= k && InWindow(i, n, k)
    ensures PrevIndex(i, n, k) == (i - 1) % WindowCount(n, k)
  {
  }

  /** On well-formed indices `prev` undoes `next` and `next` undoes `prev`. */
  lemma NextPrevInverse(i: int, n: nat, k: int)
    requires n >= k && InWindow(i, n, k)
    ensures PrevIndex(NextIndex(i, n, k), n, k) == i
    ensures NextIndex(PrevIndex(i, n, k), n, k) == i
  {
  }

  /** An index left beyond the last window (after a resize or a shorter list)
      is brought back by a single `next`, and `prev` moves it one step closer. */
  lemma OutOfRangeRecovers(i: int, n: nat, k: int)
    requires n >= k && i > LastStart(n, k)
    ensures NextIndex(i, n, k) == 0
    ensures PrevIndex(i, n, k) == i - 1 >= LastStart(n, k)
  {
  }

  /** `j` applications of `next` starting from `i`. */
  function NextIter(i: int, n: nat, k: int, j: nat): int
  {
    if j == 0 then i else NextIndex(NextIter(i, n, k, j - 1), n, k)
  }

  /** `j` applications of `prev` starting from `i`. */
  function PrevIter(i: int, n: nat, k: int, j: nat): int
  {
    if j == 0 then i else PrevIndex(PrevIter(i, n, k, j - 1), n, k)
  }

  /** Autoplay from an index before the last window visits consecutive windows until the
      last one. */
  lemma {:induction false} NextIterCounts(i: int, n: nat, k: int, j: nat)
    requires i + j <= LastStart(n, k)
    ensures NextIter(i, n, k, j) == i + j
  {
    if j > 0 {
      NextIterCounts(i, n, k, j - 1);
    }
  }

  /** `j` steps of `next` from a well-formed index land on `(i + j) mod m`,
      where `m` is the number of windows. */
  lemma {:induction false} NextIterIsModular(i: int, n: nat, k: int, j: nat)
    requires n >= k && InWindow(i, n, k)
    ensures NextIter(i, n, k, j) == (i + j) % WindowCount(n, k)
  {
    var m := WindowCount(n, k);
    if j == 0 {
      ModOfSmall(i, m);
    } else {
      NextIterIsModular(i, n, k, j - 1);
      var p := NextIter(i, n, k, j - 1);
      assert p == (i + j - 1) % m;
      NextIsSuccessorModWindows(p, n, k);
      ModSuccessor(i + j - 1, m);
    }
  }

  /** `((x mod m) + 1) mod m == (x + 1) mod m`. */
  lemma ModSuccessor(x: int, m: int)
    requires m >= 1
    ensures ((x % m) + 1) % m == (x + 1) % m
  {
    var q, r := x / m, x % m;
    assert x == q * m + r;
    if r + 1 < m {
      ModUnique(x + 1, m, q, r + 1);
    } else {
      assert x + 1 == (q + 1) * m;
      ModUnique(x + 1, m, q + 1, 0);
      ModSelf(m);
    }
  }

  lemma ModOfSmall(x: int, m: int)
    requires 0 <= x < m
    ensures x % m == x
  {
  }

  lemma ModSelf(m: int)
    requires m >= 1
    ensures m % m == 0
  {
  }

  /** Division with remainder is unique: a remainder in `[0, m)` is the one. */
  lemma ModUnique(x: int, m: int, q: int, r: int)
    requires m >= 1 && 0 <= r < m && x == q * m + r
    ensures x % m == r
  {
    var q', r' := x / m, x % m;
    assert x == q' * m + r';
    if q > q' {
      assert (q - q') * m == q * m - q' * m;
      MulAtLeast(q - q', m);
    } else if q < q' {
      assert (q' - q) * m == q' * m - q * m;
      MulAtLeast(q' - q, m);
    }
  }

  lemma MulAtLeast(a: int, m: int)
    requires a >= 1 && m >= 1
    ensures a * m >= m
  {
  }

  /** Autoplay cycle: starting from the first window with at least as many
      testimonials as cards in view, `next` returns to 0 after exactly
      `n - k + 1` steps, and not before. */
  lemma NextCycleLength(n: nat, k: int)
    requires n >= k
    ensures NextIter(0, n, k, WindowCount(n, k)) == 0
    ensures forall j: nat :: 0 < j < WindowCount(n, k) ==> NextIter(0, n, k, j) != 0
  {
    NextIterCounts(0, n, k, WindowCount(n, k) - 1);
    forall j: nat | 0 < j < WindowCount(n, k)
      ensures NextIter(0, n, k, j) != 0
    {
      NextIterCounts(0, n, k, j);
    }
  }

  /** Every window is visited in one autoplay cycle from the first window. */
  lemma NextCycleVisitsAll(n: nat, k: int, t: int)
    requires n >= k && InWindow(t, n, k)
    ensures NextIter(0, n, k, t) == t
  {
  }

  /** `j` presses of `prev` undo `j` steps of `next`. */
  lemma {:induction false} PrevIterUndoesNextIter(i: int, n: nat, k: int, j: nat)
    requires n >= k && InWindow(i, n, k)
    ensures InWindow(NextIter(i, n, k, j), n, k)
    ensures PrevIter(NextIter(i, n, k, j), n, k, j) == i
  {
    if j > 0 {
      PrevIterUndoesNextIter(i, n, k, j - 1);
      var p := NextIter(i, n, k, j - 1);
      var q := NextIter(i, n, k, j);
      NextPrevInverse(p, n, k);
      PrevIterFirstStep(q, n, k, j);
    }
  }

  /** Peels the first step off an iteration of `prev`. */
  lemma {:induction false} PrevIterFirstStep(i: int, n: nat, k: int, j: nat)
    requires j > 0
    ensures PrevIter(i, n, k, j) == PrevIter(PrevIndex(i, n, k), n, k, j - 1)
  {
    if j > 1 {
      PrevIterFirstStep(i, n, k, j - 1);
    }
  }

  /** With fewer testimonials than cards in view, repeated `prev` from the
      first window never wraps: it drifts further below zero on every press. */
  lemma {:induction false} PrevDriftsBelowZero(n: nat, k: int, j: nat)
    requires n < k && j >= 1
    ensures PrevIter(0, n, k, j) == LastStart(n, k) - (j - 1) < 0
  {
    if j > 1 {
      PrevDriftsBelowZero(n, k, j - 1);
    }
  }

  /** A negative index left by `prev` is repaired by autoplay: after
      `max(0, n - k - i) + 1` steps of `next` it is 0 again. With fewer
      testimonials than cards in view this is the first return to 0 (count up
      to `n - k`, then wrap); with at least as many, 0 is passed earlier, on
      the way up (see `NegativeFirstReachesZero`). */
  lemma NextRepairsNegative(i: int, n: nat, k: int)
    requires i < 0
    ensures NextIter(i, n, k, Max(0, LastStart(n, k) - i) + 1) == 0
  {
    var j := Max(0, LastStart(n, k) - i);
    if j > 0 {
      NextIterCounts(i, n, k, j);
    }
  }

  /** Number of `next` steps from a negative index to the first visit of 0:
      counting up reaches 0 itself when `n >= k`; otherwise the count stops at
      the negative `n - k` and the next step wraps. */
  function StepsToZero(i: int, n: nat, k: int): nat
    requires i < 0
  {
    if n >= k then -i else Max(0, LastStart(n, k) - i) + 1
  }

  /** From a negative index, `next` first reaches 0 after exactly
      `StepsToZero(i, n, k)` steps. */
  lemma NegativeFirstReachesZero(i: int, n: nat, k: int)
    requires i < 0
    ensures NextIter(i, n, k, StepsToZero(i, n, k)) == 0
    ensures forall j: nat :: j < StepsToZero(i, n, k) ==> NextIter(i, n, k, j) != 0
  {
    if n >= k {
      NextIterCounts(i, n, k, -i);
    } else {
      NextRepairsNegative(i, n, k);
    }
    forall j: nat | j < StepsToZero(i, n, k)
      ensures NextIter(i, n, k, j) != 0
    {
      if j > 0 {
        NextIterCounts(i, n, k, j);
      }
    }
  }
}

=== FILE: nullable.dfy ===
/** JavaScript's `null` / `undefined` for the values the component receives
    from outside: a CMS response, a document field, the timer ref. */
module Nullables {

  /** `Null` covers both `null` and `undefined`; the component never tells
      them apart. */
  datatype Nullable<T> = Null | Present(value: T)

  /** JavaScript `x || fallback` for a value whose every present instance is
      truthy (an object or an array). Strings, where the empty string is
      also falsy, are handled separately where they occur. */
  function Or<T>(x: Nullable<T>, fallback: T): T
  {
    if x.Present? then x.value else fallback
  }
}

=== FILE: swipe.dfy ===
/** The gesture handler (`handleTouchEnd`): a horizontal drag longer than the
    threshold navigates once; anything shorter just resumes autoplay. */
module Swipe {
  import opened Navigation

  /** Drag distance (CSS pixels) that must be exceeded to count as a swipe. */
  const Threshold: real := 50.0

  /** What a finished touch does. */
  datatype Gesture = Navigate(dir: Direction) | Resume

  function Abs(x: real): real
  {
    if x < 0.0 then -x else x
  }

  /** Classifies a touch that began at `startX` and ended at `endX`. A drag to
      the left (positive `startX - endX`) moves forward, a drag to the right
      moves back, and a drag of at most 50 pixels either way navigates
      nowhere. */
  function Classify(startX: real, endX: real): (g: Gesture)
    ensures g == Navigate(Next) <==> startX - endX > Threshold
    ensures g == Navigate(Prev) <==> endX - startX > Threshold
    ensures g == Resume <==> Abs(startX - endX) <= Threshold
  {
    var diff := startX - endX;
    if Abs(diff) > Threshold then
      Navigate(if diff > 0.0 then Next else Prev)
    else
      Resume
  }

  /** The opposite direction. */
  function Reverse(d: Direction): (r: Direction)
    ensures r != d
  {
    match d
    case Prev => Next
    case Next => Prev
  }

  /** Swapping where a drag starts and ends swaps the navigation direction
      and leaves short drags short. */
  lemma ClassifyMirror(startX: real, endX: real)
    ensures Classify(endX, startX) ==
      match Classify(startX, endX)
      case Navigate(d) => Navigate(Reverse(d))
      case Resume => Resume
  {
  }

  /** Classification depends only on the signed distance, not on where on the
      screen the drag happened. */
  lemma ClassifyTranslationInvariant(startX: real, endX: real, offset: real)
    ensures Classify(startX + offset, endX + offset) == Classify(startX, endX)
  {
  }

  /** A 60-pixel drag to the left moves forward; a 30-pixel drag, or one of
      exactly 50 pixels, does not navigate. */
  lemma ClassifyExamples()
    ensures Classify(200.0, 140.0) == Navigate(Next)
    ensures Classify(200.0, 170.0) == Resume
    ensures Classify(200.0, 150.0) == Resume
    ensures Classify(150.0, 200.0) == Resume
  {
  }
}
